=== FILE: README.md ===
# exportPetIcon: item-sprite extraction, modelled in Dafny

`exportPetIcon.py` is a batch script. It takes every SWF file in `icon/`,
looks up the id of its "item" symbol in `iconsymbol/<stem>.swf/symbols.csv`,
and runs the `ffdec` decompiler to export that sprite into a temporary
directory. It then moves the first PNG found to `iconImage/<stem>.png` and
counts how many files succeeded.

This project models the decisions the script makes. It leaves out the I/O
the script performs:

- `options.dfy` (module `Options`): the `Option` type, which stands for
  Python's "a value or `None`".
- `pystrings.dfy` (module `PyStrings`): the Python built-ins the lookup
  relies on, for ASCII text. These are `str.strip()` (`Strip` with
  `StrBlanks`), `str.lower()` (`Lower`), `int(str)` (`ParseInt`) and
  `str(int)` (`IntToString`). `int()` skips a smaller set of whitespace
  (`IntBlanks`) than `str.strip()` removes.
- `symbols.dfy` (module `SymbolTable`): `find_item_frame`, as the recursive
  scan `FindItemFrame` over the table's rows (`seq<seq<string>>`).
- `extraction.dfy` (module `Extraction`): `process_swf`, as the pure
  function `ProcessSwf`. It takes the SWF file's name and derives the stem
  from it as `PurePath.stem` does (`Stem`). Its other inputs are what the
  world answered:
  - the symbol table, `None` when the file does not exist;
  - how the decompiler run ended;
  - the PNG paths found afterwards.

  It returns the `(status, message)` report together with the ordered list
  of actions the worker takes: create the directory, run a command, rename
  a file. The message is a tag (`TableMissing`, `NoItem`, `ToolError`,
  `NoPng`, `Ok`) plus the stem.
- `dispatch.dfy` (module `Dispatch`): the `__main__` loop. A method adds up
  the successful reports, and a lemma shows that the total does not depend
  on the order in which the pool delivers the reports.

The temporary directory is removed only on success
(exportPetIcon.py:62-69). After a decompiler failure, and when no PNG
appears, the directory stays behind. `Extraction.CleanupOnlyOnSuccess`
states this.

## Model

| member | source | states |
|---|---|---|
| `PyStrings.Lower` | exportPetIcon.py:23 | `lower()` keeps the length, turns each ASCII capital into its small letter and leaves every other character alone, so no capital remains |
| `PyStrings.Strip` | exportPetIcon.py:23-25 | what stripping leaves is no longer than the text and is empty or starts and ends with a non-whitespace character |
| `PyStrings.StripUnique` | exportPetIcon.py:23 | any cut of the text whose outside is all whitespace and whose kept part has non-whitespace ends is exactly what `strip()` returns |
| `PyStrings.StripEmptyIff` | exportPetIcon.py:23 | stripping leaves nothing exactly when the text is all whitespace |
| `PyStrings.StripPaddedAt` | exportPetIcon.py:23 | whitespace added around a field keeps the part stripping keeps from it |
| `PyStrings.StripPadded` | exportPetIcon.py:23 | whitespace added on either side of a field does not change what `strip()` returns |
| `PyStrings.LowerSlice` | exportPetIcon.py:23 | lower-casing a slice of a field gives that slice of the lower-cased field |
| `PyStrings.StripLower` | exportPetIcon.py:23 | `strip()` and `lower()` commute, so applying them in either order gives the same name |
| `PyStrings.Decimal` | exportPetIcon.py:49 | `str(n)` of a natural number is a non-empty run of ASCII digits whose value is `n`, with no leading zero except for `"0"` itself |
| `PyStrings.IntToString` | exportPetIcon.py:49 | `str(n)` starts with `-` exactly when `n` is negative, and the rest is the canonical decimal text of the magnitude: digits only, whose value is the magnitude, with no leading zero except in `"0"` |
| `PyStrings.ParseStripped` | exportPetIcon.py:25 | a literal that parses ends in a digit, and a negative value comes from a leading `-` |
| `PyStrings.ParseStrippedAccepts` | exportPetIcon.py:25 | every literal made of no sign, `+` or `-` followed by one or more digits is accepted, leading zeros included, with value the digits' value, negated after `-` |
| `PyStrings.ParseStrippedOnly` | exportPetIcon.py:24-27 | any accepted literal is such a sign followed by one or more digits, with that value |
| `PyStrings.LiteralUnstripped` | exportPetIcon.py:25 | a sign-then-digits literal has no whitespace for `int()` to skip |
| `PyStrings.StrippedOutside` | exportPetIcon.py:23-25 | the characters outside the part stripping keeps are all whitespace |
| `PyStrings.ParseIntAccepts` | exportPetIcon.py:25 | `int()` of skipped whitespace, a sign-then-digits literal and skipped whitespace returns the literal's value |
| `PyStrings.ParseIntOnly` | exportPetIcon.py:24-27 | a field `int()` parses is always skipped whitespace, a sign-then-digits literal and skipped whitespace, and the result is the literal's value |
| `PyStrings.ParseInt` | exportPetIcon.py:24-27 | `int()` of a field succeeds only if the field holds a digit, so a field without one raises `ValueError` (`None`) |
| `PyStrings.ParseIntToString` | exportPetIcon.py:25 | `int(str(n)) == n` for every integer `n` |
| `PyStrings.ParseIntPadded` | exportPetIcon.py:25 | `int()` ignores space, `\t`, `\n`, `\v`, `\f` and `\r` around the number |
| `PyStrings.ParseIntRejectsSeparator` | exportPetIcon.py:23-25 | a separator `\x1c`-`\x1f` before or after the digits makes `int()` fail, although `strip()` removes it |
| `SymbolTable.FindItemFrame` | exportPetIcon.py:18-28 | an id the lookup returns is the parsed first field of some row that has two or more fields, the item name and a parsable id |
| `SymbolTable.FindItemFrameFirstMatch` | exportPetIcon.py:18-28 | the lookup returns `None` exactly when no row has two or more fields, the item name and a parsable id; otherwise it returns the parsed id of the first such row |
| `SymbolTable.FindItemFrameAppend` | exportPetIcon.py:22-28 | when the first part of a table has a match, the rows after it are never read; when it has none, the result is that of the rest |
| `SymbolTable.LaterRowsIrrelevant` | exportPetIcon.py:22-25 | once a prefix of the table yields an id, no later row changes the result |
| `SymbolTable.NonQualifyingRowSkipped` | exportPetIcon.py:23-27 | a row with fewer than two fields, a different name or an unparsable id can be deleted from anywhere in the table without changing the result, so the scan goes on past it |
| `SymbolTable.FindItemFrameCongruent` | exportPetIcon.py:22-27 | two tables whose rows qualify alike, with equal ids where they do, give the same result |
| `SymbolTable.ReplaceRow` | exportPetIcon.py:22-27 | replacing one row by another that qualifies alike, with the same id, keeps the result |
| `SymbolTable.ItemNameIgnoresCase` | exportPetIcon.py:23 | two names equal after lower-casing pass or fail the name test together |
| `SymbolTable.ItemNameIgnoresPadding` | exportPetIcon.py:23 | whitespace around a name does not affect the name test |
| `SymbolTable.ItemIsItemName` | exportPetIcon.py:23 | the literal `item` passes the name test |
| `SymbolTable.ItemSpellings` | exportPetIcon.py:23 | `item`, `Item`, `ITEM` and ` item ` all pass the name test |
| `SymbolTable.ItemSpellingIrrelevant` | exportPetIcon.py:23 | writing a row's name as `Item`, `ITEM` or ` item ` instead of `item` gives the same lookup result for the whole table |
| `SymbolTable.EmptyTableHasNoItem` | exportPetIcon.py:28 | an empty table yields `None` |
| `Extraction.ExportCommand` | exportPetIcon.py:47-54 | the command has ten arguments, starts with `ffdec`, ends with the temporary directory and the SWF path, and its fourth argument reads back as the symbol id |
| `Extraction.Stem` | exportPetIcon.py:32 | the stem is a prefix of the file name; when shorter, it is non-empty and the name goes on with a `.` |
| `Extraction.StemOfSwfName` | exportPetIcon.py:32 | a name `<base>.swf` with a non-empty base has the stem `<base>`, even when the base holds dots |
| `Extraction.HiddenSwfStem` | exportPetIcon.py:32 | the name `.swf`, which `glob("*.swf")` also matches, is its own stem |
| `Extraction.TempDir` | exportPetIcon.py:44 | the temporary directory lies under `iconImage/temp`; it is that scratch tree itself exactly for the stem `.`, because pathlib drops a `.` component, and otherwise `iconImage/temp/<stem>` |
| `Extraction.DotSwfRemovesScratchTree` | exportPetIcon.py:44-66 | the file `..swf`, which the glob matches, has the stem `.`, so its clean-up is `rm -rf iconImage/temp`, removing the scratch tree of every worker |
| `Extraction.RemoveCommand` | exportPetIcon.py:66 | the clean-up is `rm -rf` of the stem's temporary directory, and the output PNG's path lies outside that directory |
| `Extraction.ProcessSwf` | exportPetIcon.py:30-72 | the report names the file's stem; status is true exactly when the message is `Ok`; any action list begins with creating the temporary directory, followed by a command run; a success has four actions, a rename third and the clean-up last; a failure has at most two |
| `Extraction.ProcessSucceedsIff` | exportPetIcon.py:36-69 | the worker succeeds exactly when the table exists, names an item, the decompiler exits cleanly and at least one PNG is found |
| `Extraction.EarlyFailureDoesNothing` | exportPetIcon.py:36-41 | a missing table (`TableMissing`) or a table without an item (`NoItem`) fails with no action at all, so no directory is created and nothing is run |
| `Extraction.ToolRunsOnResolvedId` | exportPetIcon.py:44-56 | once an id is found, the temporary directory is created and then exactly `ffdec -cli -selectid <id> -zoom 4 -export sprite <abs temp dir> <abs icon/name>` is run with `check` and a 30-second timeout; its fourth argument parses back to the id found |
| `Extraction.SuccessMovesFirstPng` | exportPetIcon.py:62-67 | on success the first PNG found is renamed to `iconImage/<stem>.png` and then `rm -rf` removes the temporary directory; there are exactly four actions |
| `Extraction.CleanupOnlyOnSuccess` | exportPetIcon.py:62-69 | the `rm -rf` of the temporary directory is among the actions exactly when the worker succeeds |
| `Extraction.OutputOnlyOnSuccess` | exportPetIcon.py:59-69 | a file is renamed into the output directory exactly when the worker succeeds |
| `Extraction.ToolFailureReported` | exportPetIcon.py:56 | a raising decompiler run gives `(False, ToolError)` after exactly the directory creation and the run |
| `Extraction.NoPngReported` | exportPetIcon.py:68-69 | a clean run that leaves no PNG gives `(False, NoPng)`, with no rename and no removal |
| `Dispatch.CountTrue` | exportPetIcon.py:81-85 | the number of successful reports is at most the number of reports |
| `Dispatch.CountSuccesses` | exportPetIcon.py:81-85 | the running counter ends equal to the number of `True` statuses, and at most the number of reports |
| `Dispatch.CountTrueAppend` | exportPetIcon.py:85 | the count over two batches of reports is the sum of their counts |
| `Dispatch.CountTrueRemove` | exportPetIcon.py:85 | removing one report lowers the count by 1 if it succeeded and by 0 otherwise |
| `Dispatch.CountTrueOrderIrrelevant` | exportPetIcon.py:80-85 | any reordering of the reports, as the unordered pool produces, gives the same count |
| `Dispatch.PermutationLength` | exportPetIcon.py:82-83 | reordering the reports keeps their number |
| `Dispatch.Process` | exportPetIcon.py:82 | the report for a file names that file's stem, and is a success exactly when its table exists, names an item, the decompiler exits cleanly and a PNG is found |
| `Dispatch.ProcessAll` | exportPetIcon.py:82 | every file yields exactly one report, the `i`-th report being the worker's report for the `i`-th file |
| `Dispatch.Tally` | exportPetIcon.py:77-87 | whatever order the reports arrive in, the final counter equals the number of files the worker succeeds on, and is at most the number of files |
| `Dispatch.TwoFileScenario` | exportPetIcon.py:77-87 | given one file with an item row and a PNG-producing tool run and one file without a table, exactly one of the two reports is a success, in either completion order |
| `Dispatch.ScenarioTable` | exportPetIcon.py:18-28 | the table with the single row `5;item` resolves to id 5 |

## Left out

- Reading the table file and `csv.reader` tokenisation (exportPetIcon.py:20-21). The rows are an input. Quoting, escapes and the CSV dialect belong to the library.
- `Path.exists`, `mkdir`, `rglob`, `rename` and `Path(output_dir).mkdir` at start-up (exportPetIcon.py:16, 36, 45, 60, 64). These are filesystem I/O. Existence is the `None` case of the table input, and the PNG list is an input in the order found. `rglob`'s order is platform-dependent, so "first PNG" means the first of that input.
- `Extraction.ProcessSwf`: only the decompiler run can raise. Other exceptions are not modelled: reading or decoding the table, `mkdir`, `rglob` and `rename` failing, and a clean-up run that cannot be started. The model assumes a host where `rm` can be run. If the clean-up run raised (no `rm` on the host, or an `OSError` when the process is created), the PNG would already be at `iconImage/<stem>.png` while the report is a failure; `Extraction.OutputOnlyOnSuccess` and `Extraction.CleanupOnlyOnSuccess` do not cover that case. All of these would end in the same catch-all error report (exportPetIcon.py:71-72). The exception text in that message is left out as well; the message is a tag and the stem.
- The `subprocess.run` calls themselves, the 30-second timeout as behaviour, and what `rm -rf` does (exportPetIcon.py:56, 66). They are recorded as `Run` actions carrying their argument list, the `check` flag and the timeout. Their effect on the filesystem is not modelled.
- `Extraction.Resolve`: `Path.resolve()` is modelled as joining the working directory and the relative path. Symbolic links and `..` components are not followed.
- `multiprocessing.Pool` and `imap_unordered` (exportPetIcon.py:80-82). Concurrency is not modelled. Completion order is any permutation of the submitted reports (`Dispatch.Tally` takes it as an input).
- `time.time()` and all `print` output, including the running `[i/total]` index (exportPetIcon.py:75, 78, 84, 87-88).
- `PyStrings.Strip`: only ASCII whitespace is stripped (space, `\t`, `\n`, `\v`, `\f`, `\r` and, for `str.strip()`, `\x1c`-`\x1f`). Python's `str.strip()` also strips Unicode whitespace such as `\x85` and `\xa0`.
- `PyStrings.Lower`: only `A`-`Z` are lower-cased. Python's `str.lower()` maps all of Unicode.
- `PyStrings.ParseInt`: accepts surrounding space, `\t`, `\n`, `\v`, `\f` and `\r`, one optional sign and one or more ASCII digits. Python's `int()` also skips Unicode whitespace such as `\xa0` around the number, and accepts `_` between digits and non-ASCII decimal digits.
- `PyStrings.ParseInt`: CPython refuses to convert a literal of more than 4300 digits by default (`sys.get_int_max_str_digits`), and `str(n)` refuses such a number too. The model has no digit limit, so `PyStrings.ParseIntToString` holds here for numbers that CPython would not convert.
- The enumeration of input files with `glob("*.swf")` (exportPetIcon.py:77). The files are an input sequence of `Dispatch.FileInput`, each identified by its file name. The glob also matches the hidden file `.swf`, whose stem is the whole name.

=== FILE: dispatch.dfy ===
/**
 * The `__main__` block of exportPetIcon.py: every SWF file goes through the
 * worker, the reports come back in whatever order the pool finishes them,
 * and a counter adds up the successes.
 */
module Dispatch {

  import opened Options
  import opened SymbolTable
  import opened Extraction
  import opened PyStrings

  /** What the world holds for one SWF file: its name, its symbol table if any, the tool's outcome and the PNGs it left. */
  datatype FileInput = FileInput(name: string, table: Option<seq<Row>>, tool: ToolOutcome, pngs: seq<string>)

  /** The number of successful reports. */
  function CountTrue(reports: seq<Report>): (n: nat)
    ensures n <= |reports|
  {
    if reports == [] then 0
    else CountTrue(reports[..|reports| - 1]) + (if reports[|reports| - 1].status then 1 else 0)
  }

  /** The running success counter over the reports, in the order they arrive. */
  method CountSuccesses(reports: seq<Report>) returns (success: nat)
    ensures success == CountTrue(reports)
    ensures success <= |reports|
  {
    success := 0;
    for i := 0 to |reports|
      invariant success == CountTrue(reports[..i])
    {
      assert reports[..i + 1][..i] == reports[..i];
      success := success + if reports[i].status then 1 else 0;
    }
    assert reports[..|reports|] == reports;
  }

  lemma {:induction false} CountTrueAppend(a: seq<Report>, b: seq<Report>)
    ensures CountTrue(a + b) == CountTrue(a) + CountTrue(b)
  {
    if b == [] {
      assert a + b == a;
    } else {
      var b' := b[..|b| - 1];
      assert (a + b)[..|a + b| - 1] == a + b';
      CountTrueAppend(a, b');
    }
  }

  /** Taking one report out of any position lowers the count by that report's contribution. */
  lemma {:induction false} CountTrueRemove(s: seq<Report>, k: nat)
    requires k < |s|
    ensures CountTrue(s) == CountTrue(s[..k] + s[k + 1..]) + (if s[k].status then 1 else 0)
  {
    var rest := s[..k] + s[k + 1..];
    if k == |s| - 1 {
      assert rest == s[..|s| - 1];
    } else {
      var front := s[..|s| - 1];
      CountTrueRemove(front, k);
      var frontRest := front[..k] + front[k + 1..];
      assert |rest| == |s| - 1 && rest[|rest| - 1] == s[|s| - 1];
      assert rest[..|rest| - 1] == frontRest;
      assert front[k] == s[k];
    }
  }

  lemma MultisetCancel(m: multiset<Report>, m2: multiset<Report>, x: Report)
    requires m + multiset{x} == m2 + multiset{x}
    ensures m == m2
  {
    forall y ensures m[y] == m2[y] {
      assert (m + multiset{x})[y] == (m2 + multiset{x})[y];
    }
  }

  /** Reordering the reports keeps their number. */
  lemma PermutationLength(s: seq<Report>, t: seq<Report>)
    requires multiset(s) == multiset(t)
    ensures |s| == |t|
  {
    assert |s| == |multiset(s)| && |t| == |multiset(t)|;
  }

  /** The count does not depend on the order in which the reports arrive. */
  lemma {:induction false} CountTrueOrderIrrelevant(s: seq<Report>, t: seq<Report>)
    requires multiset(s) == multiset(t)
    ensures CountTrue(s) == CountTrue(t)
    decreases |s|
  {
    if s == [] {
      PermutationLength(s, t);
    } else {
      var n := |s| - 1;
      var last, front := s[n], s[..n];
      assert s == front + [last];
      assert multiset(s) == multiset(front) + multiset{last};
      assert last in multiset(t);
      var k :| 0 <= k < |t| && t[k] == last;
      var before, after := t[..k], t[k + 1..];
      assert t == (before + after[..0]) + [last] + after;
      assert t == before + [last] + after;
      var t' := before + after;
      assert multiset(t) == multiset(t') + multiset{last};
      MultisetCancel(multiset(front), multiset(t'), last);
      CountTrueOrderIrrelevant(front, t');
      CountTrueRemove(t, k);
    }
  }

  /**
   * The worker's report for one file: it names the file, and it is a success
   * exactly when the table exists, names an item, the decompiler exits
   * cleanly and a PNG turns up.
   */
  function Process(cwd: string, f: FileInput): (r: Report)
    ensures r.message.stem == Stem(f.name)
    ensures r.status <==>
      f.table.Some? && FindItemFrame(f.table.value).Some? && f.tool == Completed && f.pngs != []
  {
    ProcessSucceedsIff(cwd, f.name, f.table, f.tool, f.pngs);
    ProcessSwf(cwd, f.name, f.table, f.tool, f.pngs).report
  }

  /** The reports in submission order. */
  function ProcessAll(cwd: string, files: seq<FileInput>): (reports: seq<Report>)
    ensures |reports| == |files|
    ensures forall i :: 0 <= i < |files| ==> reports[i] == Process(cwd, files[i])
  {
    if files == [] then [] else [Process(cwd, files[0])] + ProcessAll(cwd, files[1..])
  }

  /**
   * However the pool orders the completed reports, the final counter is the
   * number of files the worker succeeded on, and at most the number of files.
   */
  method Tally(cwd: string, files: seq<FileInput>, completed: seq<Report>) returns (success: nat)
    requires multiset(completed) == multiset(ProcessAll(cwd, files))
    ensures success == CountTrue(ProcessAll(cwd, files))
    ensures success <= |files|
  {
    success := CountSuccesses(completed);
    CountTrueOrderIrrelevant(completed, ProcessAll(cwd, files));
  }

  lemma CountTruePair(x: Report, y: Report)
    ensures CountTrue([x, y]) == (if x.status then 1 else 0) + (if y.status then 1 else 0)
  {
    assert [x, y][..1] == [x];
    assert [x][..0] == [];
  }

  /**
   * Two files: the table of `a` names an item and the tool leaves a PNG for
   * it, `b` has no table. One success out of two, whatever the completion
   * order.
   */
  lemma TwoFileScenario(cwd: string, a: FileInput, b: FileInput, completed: seq<Report>)
    requires a.table.Some? && FindItemFrame(a.table.value).Some? && a.tool == Completed && a.pngs != []
    requires b.table == None
    requires multiset(completed) == multiset(ProcessAll(cwd, [a, b]))
    ensures |completed| == 2 && CountTrue(completed) == 1
  {
    var ra, rb := Process(cwd, a), Process(cwd, b);
    ProcessSucceedsIff(cwd, a.name, a.table, a.tool, a.pngs);
    ProcessSucceedsIff(cwd, b.name, b.table, b.tool, b.pngs);
    var all := ProcessAll(cwd, [a, b]);
    assert [a, b][1..] == [b] && [b][1..] == [];
    assert all == [ra, rb];
    CountTruePair(ra, rb);
    CountTrueOrderIrrelevant(completed, all);
    PermutationLength(completed, all);
  }

  /** The symbol table `5;item` resolves to id 5, so it can play file `a` above. */
  lemma ScenarioTable()
    ensures FindItemFrame([["5", ItemName]]) == Some(5)
  {
    ItemIsItemName();
    StripUnique(IntBlanks, "5", 0, 1);
    assert ParseInt("5") == Some(5);
    assert Qualifies(["5", ItemName]);
  }
}

=== FILE: extraction.dfy ===
/**
 * `process_swf` of exportPetIcon.py with its input and output turned into
 * values: what the filesystem and the decompiler answered are parameters,
 * and what the worker does to the world is returned as an ordered list of
 * actions beside the `(status, message)` pair it reports.
 */
module Extraction {

  import opened Options
  import opened PyStrings
  import opened SymbolTable

  const FfdecPath := "ffdec"
  const SwfDir := "icon"
  const OutputDir := "iconImage"
  const Zoom := "4"
  const ToolTimeoutSeconds: nat := 30

  /** How the decompiler run ended: it exited zero, or `subprocess.run` raised (non-zero exit, timeout, no binary). */
  datatype ToolOutcome = Completed | Raised

  /** The kind of the message the worker reports; the source's messages also carry the stem. */
  datatype MessageKind = Ok | TableMissing | NoItem | ToolError | NoPng

  datatype Message = Message(kind: MessageKind, stem: string)

  /** The `(status, message)` pair handed back to the dispatcher. */
  datatype Report = Report(status: bool, message: Message)

  /** What the worker does to the world, in the order it does it. */
  datatype Action =
    | MakeDirs(path: string)
    | Run(argv: seq<string>, check: bool, timeoutSeconds: Option<nat>)
    | Rename(src: string, dst: string)

  datatype Outcome = Outcome(report: Report, actions: seq<Action>)

  /** `str.rfind(c)`: the index of the last `c` in `s`, or -1 when there is none. */
  function RFind(s: string, c: char): (i: int)
    ensures -1 <= i < |s|
    ensures i >= 0 ==> s[i] == c
  {
    if s == [] then -1
    else if s[|s| - 1] == c then |s| - 1
    else RFind(s[..|s| - 1], c)
  }

  /** No `c` comes after the index `RFind` returns. */
  lemma {:induction false} RFindIsLast(s: string, c: char)
    ensures forall j :: RFind(s, c) < j < |s| ==> s[j] != c
  {
    if s != [] && s[|s| - 1] != c {
      RFindIsLast(s[..|s| - 1], c);
      assert forall j :: 0 <= j < |s| - 1 ==> s[..|s| - 1][j] == s[j];
    }
  }

  /** Text without a `c` appended after `s` leaves the last `c` where it was. */
  lemma {:induction false} RFindSkip(s: string, t: string, c: char)
    requires forall j :: 0 <= j < |t| ==> t[j] != c
    ensures RFind(s + t, c) == RFind(s, c)
  {
    if t != [] {
      var u := s + t;
      assert u[|u| - 1] == t[|t| - 1] && t[|t| - 1] != c;
      assert u[..|u| - 1] == s + t[..|t| - 1];
      RFindSkip(s, t[..|t| - 1], c);
    } else {
      assert s + t == s;
    }
  }

  /**
   * `PurePath.stem` of a file name: the name without its last suffix, where
   * a suffix is a dot that is neither the first nor the last character,
   * with what follows it. The stem is always a prefix of the name.
   */
  function Stem(name: string): (stem: string)
    ensures |stem| <= |name| && stem == name[..|stem|]
    ensures |stem| < |name| ==> 0 < |stem| && name[|stem|] == '.'
  {
    var i := RFind(name, '.');
    if 0 < i < |name| - 1 then name[..i] else name
  }

  /** A file `<base>.swf` with a non-empty base has the stem `<base>`, whatever dots the base holds. */
  lemma StemOfSwfName(base: string)
    requires base != []
    ensures Stem(base + ".swf") == base
  {
    RFindSkip(base + ".", "swf", '.');
    assert base + ".swf" == (base + ".") + "swf";
    assert (base + ".swf")[..|base|] == base;
  }

  /** The hidden file `.swf` keeps its whole name as its stem: a leading dot starts no suffix. */
  lemma HiddenSwfStem()
    ensures Stem(".swf") == ".swf"
  {
    RFindSkip(".", "swf", '.');
    assert "." + "swf" == ".swf";
  }

  /** The path of a file the glob for SWF files in `icon` found, given its name. */
  function SwfPath(name: string): string {
    SwfDir + "/" + name
  }

  /** The scratch tree every worker's temporary directory lives in. */
  const TempRoot := OutputDir + "/temp"

  /**
   * `Path(output_dir) / "temp" / stem`: pathlib drops a `.` component, so the
   * stem `.` (of the file `..swf`) names the scratch tree itself; every other
   * stem names a directory inside it.
   */
  function TempDir(stem: string): (p: string)
    ensures TempRoot <= p
    ensures p == TempRoot <==> stem == "."
    ensures p != TempRoot ==> p == TempRoot + "/" + stem
  {
    if stem == "." then TempRoot else TempRoot + "/" + stem
  }

  function OutputPath(stem: string): string {
    OutputDir + "/" + stem + ".png"
  }

  /** `Path.resolve()` of a relative path, from the working directory `cwd`, with no symbolic links on the way. */
  function Resolve(cwd: string, path: string): string {
    cwd + "/" + path
  }

  /**
   * The decompiler's argument list: select symbol `id`, zoom 4, export
   * sprites into `tempDir`, reading `swf`.
   */
  function ExportCommand(id: int, tempDir: string, swf: string): (argv: seq<string>)
    ensures |argv| == 10
    ensures argv[0] == FfdecPath && argv[8] == tempDir && argv[9] == swf
    ensures argv[2] == "-selectid" && ParseInt(argv[3]) == Some(id)
  {
    ParseIntToString(id);
    [FfdecPath, "-cli", "-selectid", IntToString(id), "-zoom", Zoom, "-export", "sprite", tempDir, swf]
  }

  /**
   * The clean-up command, run without `check`, so a non-zero exit goes
   * unnoticed. It removes the stem's temporary directory, by its relative
   * path; the PNG just moved out of it lies outside the removed tree.
   */
  function RemoveCommand(stem: string): (argv: seq<string>)
    ensures |argv| == 3 && argv[0] == "rm" && argv[1] == "-rf"
    ensures argv[2] == TempDir(stem) && !(argv[2] + "/" <= OutputPath(stem))
  {
    var argv := ["rm", "-rf", TempDir(stem)];
    assert stem == "." ==> (argv[2] + "/")[10] != OutputPath(stem)[10];
    assert stem != "." ==> |argv[2] + "/"| > |OutputPath(stem)|;
    argv
  }

  /**
   * The file `..swf` has the stem `.`, so its clean-up removes the whole
   * scratch tree, the temporary directories of other workers included.
   */
  lemma DotSwfRemovesScratchTree()
    ensures Stem("..swf") == "."
    ensures RemoveCommand(Stem("..swf")) == ["rm", "-rf", TempRoot]
  {
    StemOfSwfName(".");
    assert "." + ".swf" == "..swf";
  }

  /**
   * One worker call, on the file `icon/<name>` whose stem is `Stem(name)`.
   * `table` is the symbol table at
   * `iconsymbol/<stem>.swf/symbols.csv`, `None` when that file does not
   * exist; `tool` is how the decompiler run ended; `pngs` is what the
   * recursive search for `*.png` under the temporary directory found
   * afterwards, in the order it found them.
   */
  function ProcessSwf(cwd: string, name: string, table: Option<seq<Row>>, tool: ToolOutcome, pngs: seq<string>): (o: Outcome)
    ensures o.report.message.stem == Stem(name)
    ensures o.report.status <==> o.report.message.kind == Ok
    ensures o.actions != [] ==> |o.actions| >= 2 && o.actions[0] == MakeDirs(TempDir(Stem(name))) && o.actions[1].Run?
    ensures o.report.status ==> |o.actions| == 4 && o.actions[2].Rename? && o.actions[3] == Run(RemoveCommand(Stem(name)), false, None)
    ensures !o.report.status ==> |o.actions| <= 2
  {
    var stem := Stem(name);
    match table
    case None => Outcome(Report(false, Message(TableMissing, stem)), [])
    case Some(rows) =>
      match FindItemFrame(rows)
      case None => Outcome(Report(false, Message(NoItem, stem)), [])
      case Some(id) =>
        var temp := TempDir(stem);
        var command := ExportCommand(id, Resolve(cwd, temp), Resolve(cwd, SwfPath(name)));
        var started := [MakeDirs(temp), Run(command, true, Some(ToolTimeoutSeconds))];
        if tool == Raised then
          Outcome(Report(false, Message(ToolError, stem)), started)
        else if |pngs| > 0 then
          Outcome(Report(true, Message(Ok, stem)),
                  started + [Rename(pngs[0], OutputPath(stem)), Run(RemoveCommand(stem), false, None)])
        else
          Outcome(Report(false, Message(NoPng, stem)), started)
  }

  /** The worker reports success exactly when the table exists, names an item, the tool succeeds and a PNG appears. */
  lemma ProcessSucceedsIff(cwd: string, name: string, table: Option<seq<Row>>, tool: ToolOutcome, pngs: seq<string>)
    ensures ProcessSwf(cwd, name, table, tool, pngs).report.status
        <==> table.Some? && FindItemFrame(table.value).Some? && tool == Completed && pngs != []
  {
  }

  /** Without a table, or without an item row in it, the worker fails before touching anything. */
  lemma EarlyFailureDoesNothing(cwd: string, name: string, table: Option<seq<Row>>, tool: ToolOutcome, pngs: seq<string>)
    requires table.None? || FindItemFrame(table.value).None?
    ensures var o := ProcessSwf(cwd, name, table, tool, pngs);
      && !o.report.status
      && o.actions == []
      && o.report.message.kind == (if table.None? then TableMissing else NoItem)
  {
  }

  /**
   * Once the table names an item, the temporary directory is created and the
   * decompiler is run on the item's id, the absolute temporary directory and
   * the absolute SWF path, with `check` on and a 30 second limit.
   */
  lemma ToolRunsOnResolvedId(cwd: string, name: string, rows: seq<Row>, tool: ToolOutcome, pngs: seq<string>)
    requires FindItemFrame(rows).Some?
    ensures var o := ProcessSwf(cwd, name, Some(rows), tool, pngs);
      && |o.actions| >= 2
      && o.actions[0] == MakeDirs(TempDir(Stem(name)))
      && o.actions[1] == Run([FfdecPath, "-cli", "-selectid", IntToString(FindItemFrame(rows).value),
                              "-zoom", "4", "-export", "sprite",
                              Resolve(cwd, TempDir(Stem(name))), Resolve(cwd, SwfPath(name))],
                             true, Some(30))
      && ParseInt(o.actions[1].argv[3]) == FindItemFrame(rows)
  {
    ParseIntToString(FindItemFrame(rows).value);
  }

  /**
   * On success the first PNG found is moved to `iconImage/<stem>.png` and
   * then the temporary directory is removed; nothing else happens.
   */
  lemma SuccessMovesFirstPng(cwd: string, name: string, table: Option<seq<Row>>, tool: ToolOutcome, pngs: seq<string>)
    requires ProcessSwf(cwd, name, table, tool, pngs).report.status
    ensures var o := ProcessSwf(cwd, name, table, tool, pngs);
      && |pngs| > 0
      && |o.actions| == 4
      && o.actions[2] == Rename(pngs[0], OutputPath(Stem(name)))
      && o.actions[3] == Run(["rm", "-rf", TempDir(Stem(name))], false, None)
  {
  }

  /** The temporary directory is removed exactly on success. */
  lemma CleanupOnlyOnSuccess(cwd: string, name: string, table: Option<seq<Row>>, tool: ToolOutcome, pngs: seq<string>)
    ensures var o := ProcessSwf(cwd, name, table, tool, pngs);
      Run(RemoveCommand(Stem(name)), false, None) in o.actions <==> o.report.status
  {
    var o := ProcessSwf(cwd, name, table, tool, pngs);
    if !o.report.status && o.actions != [] {
      assert o.actions[1] != Run(RemoveCommand(Stem(name)), false, None) by {
        assert |o.actions[1].argv| == 10;
      }
      assert o.actions == o.actions[..2];
    }
  }

  /** The output image is written exactly on success. */
  lemma OutputOnlyOnSuccess(cwd: string, name: string, table: Option<seq<Row>>, tool: ToolOutcome, pngs: seq<string>)
    ensures var o := ProcessSwf(cwd, name, table, tool, pngs);
      (exists i :: 0 <= i < |o.actions| && o.actions[i].Rename?) <==> o.report.status
  {
    var o := ProcessSwf(cwd, name, table, tool, pngs);
    if o.report.status {
      assert o.actions[2].Rename?;
    } else {
      forall i | 0 <= i < |o.actions| ensures !o.actions[i].Rename? {
        assert i == 0 || i == 1;
      }
    }
  }

  /**
   * A decompiler failure is reported as an error, after the directory was
   * made and the tool run; the directory stays behind.
   */
  lemma ToolFailureReported(cwd: string, name: string, rows: seq<Row>, pngs: seq<string>)
    requires FindItemFrame(rows).Some?
    ensures var o := ProcessSwf(cwd, name, Some(rows), Raised, pngs);
      && o.report == Report(false, Message(ToolError, Stem(name)))
      && |o.actions| == 2
  {
  }

  /** A tool run that leaves no PNG is reported as such; nothing is moved and the directory stays behind. */
  lemma NoPngReported(cwd: string, name: string, rows: seq<Row>)
    requires FindItemFrame(rows).Some?
    ensures var o := ProcessSwf(cwd, name, Some(rows), Completed, []);
      && o.report == Report(false, Message(NoPng, Stem(name)))
      && |o.actions| == 2
  {
  }
}

=== FILE: options.dfy ===
/** The optional value that Python spells as "a value or None". */
module Options {

  datatype Option<+T> = None | Some(value: T)

}

=== FILE: pystrings.dfy ===
/**
 * The parts of Python's string built-ins that the symbol lookup relies on:
 * `str.strip()`, `str.lower()`, `int(str)` and `str(int)`, restricted to
 * ASCII text.
 */
module PyStrings {

  import opened Options

  /**
   * Which characters count as whitespace. `str.strip()` and `str.isspace()`
   * take the separators `\x1c`-`\x1f` for whitespace; `int()` skips only
   * space and `\t` `\n` `\v` `\f` `\r` around an ASCII literal.
   */
  datatype Blanks = StrBlanks | IntBlanks

  predicate IsBlank(w: Blanks, c: char) {
    c == ' ' || (9 <= c as int <= 13) || (w == StrBlanks && 28 <= c as int <= 31)
  }

  predicate AllBlank(w: Blanks, s: string) {
    forall i :: 0 <= i < |s| ==> IsBlank(w, s[i])
  }

  /** `str.lower()` on one ASCII character. */
  function LowerChar(c: char): char {
    if 'A' <= c <= 'Z' then (c as int + 32) as char else c
  }

  /** `str.lower()`: every ASCII capital becomes its small letter, every other character stays. */
  function Lower(s: string): (r: string)
    ensures |r| == |s|
    ensures forall i :: 0 <= i < |s| ==> !('A' <= r[i] <= 'Z')
    ensures forall i :: 0 <= i < |s| && 'A' <= s[i] <= 'Z' ==> r[i] as int == s[i] as int + 32
    ensures forall i :: 0 <= i < |s| && !('A' <= s[i] <= 'Z') ==> r[i] == s[i]
  {
    seq(|s|, i requires 0 <= i < |s| => LowerChar(s[i]))
  }

  /** Number of whitespace characters at the front of `s`. */
  function LeadingBlank(w: Blanks, s: string): (k: nat)
    ensures k <= |s|
  {
    if |s| > 0 && IsBlank(w, s[0]) then 1 + LeadingBlank(w, s[1..]) else 0
  }

  /** Number of whitespace characters at the end of `s`. */
  function TrailingBlank(w: Blanks, s: string): (k: nat)
    ensures k <= |s|
  {
    if |s| > 0 && IsBlank(w, s[|s| - 1]) then 1 + TrailingBlank(w, s[..|s| - 1]) else 0
  }

  /** `LeadingBlank` counts the whole whitespace run at the front, and no further. */
  lemma {:induction false} LeadingBlankSpec(w: Blanks, s: string)
    ensures forall i :: 0 <= i < LeadingBlank(w, s) ==> IsBlank(w, s[i])
    ensures LeadingBlank(w, s) < |s| ==> !IsBlank(w, s[LeadingBlank(w, s)])
  {
    if |s| > 0 && IsBlank(w, s[0]) {
      LeadingBlankSpec(w, s[1..]);
      assert forall i :: 1 <= i < |s| ==> s[i] == s[1..][i - 1];
    }
  }

  /** `TrailingBlank` counts the whole whitespace run at the end, and no further. */
  lemma {:induction false} TrailingBlankSpec(w: Blanks, s: string)
    ensures forall i :: |s| - TrailingBlank(w, s) <= i < |s| ==> IsBlank(w, s[i])
    ensures TrailingBlank(w, s) < |s| ==> !IsBlank(w, s[|s| - 1 - TrailingBlank(w, s)])
  {
    if |s| > 0 && IsBlank(w, s[|s| - 1]) {
      TrailingBlankSpec(w, s[..|s| - 1]);
      assert forall i :: 0 <= i < |s| - 1 ==> s[i] == s[..|s| - 1][i];
    }
  }

  /**
   * `s[a..b]` is what stripping `s` leaves: everything before `a` and from `b`
   * on is whitespace, and a non-empty remainder starts and ends with a
   * non-whitespace character.
   */
  ghost predicate StrippedAt(w: Blanks, s: string, a: int, b: int) {
    && 0 <= a <= b <= |s|
    && (forall i :: 0 <= i < a ==> IsBlank(w, s[i]))
    && (forall i :: b <= i < |s| ==> IsBlank(w, s[i]))
    && (a < b ==> !IsBlank(w, s[a]) && !IsBlank(w, s[b - 1]))
  }

  function StripBounds(w: Blanks, s: string): (ab: (nat, nat))
    ensures ab.0 <= ab.1 <= |s|
  {
    var a := LeadingBlank(w, s);
    if a == |s| then (|s|, |s|)
    else
      LeadingBlankSpec(w, s);
      TrailingBlankSpec(w, s);
      (a, |s| - TrailingBlank(w, s))
  }

  /** The bounds `StripBounds` picks are the ones stripping keeps. */
  lemma StripBoundsSpec(w: Blanks, s: string)
    ensures StrippedAt(w, s, StripBounds(w, s).0, StripBounds(w, s).1)
  {
    LeadingBlankSpec(w, s);
    TrailingBlankSpec(w, s);
  }

  /**
   * Removes the whitespace runs at both ends: `str.strip()` with no argument
   * for `StrBlanks`, the skipping `int()` does for `IntBlanks`.
   */
  function Strip(w: Blanks, s: string): (r: string)
    ensures |r| <= |s|
    ensures r == [] || (!IsBlank(w, r[0]) && !IsBlank(w, r[|r| - 1]))
  {
    var ab := StripBounds(w, s);
    StripBoundsSpec(w, s);
    s[ab.0..ab.1]
  }

  /** Whatever bounds satisfy `StrippedAt`, they cut out exactly `Strip(w, s)`. */
  lemma StripUnique(w: Blanks, s: string, a: int, b: int)
    requires StrippedAt(w, s, a, b)
    ensures Strip(w, s) == s[a..b]
  {
    var ab := StripBounds(w, s);
    StripBoundsSpec(w, s);
    if a < b {
      assert !IsBlank(w, s[a]) && !IsBlank(w, s[b - 1]);
    }
    if ab.0 < ab.1 {
      assert !IsBlank(w, s[ab.0]) && !IsBlank(w, s[ab.1 - 1]);
    }
  }

  /** Whitespace added around `s` moves its stripping bounds along with it. */
  lemma StrippedAtPadded(w: Blanks, p: string, s: string, q: string, a: int, b: int)
    requires AllBlank(w, p) && AllBlank(w, q)
    requires StrippedAt(w, s, a, b) && a < b
    ensures StrippedAt(w, p + s + q, |p| + a, |p| + b)
  {
    var t := p + s + q;
    forall i | 0 <= i < |p| + a ensures IsBlank(w, t[i]) {
      if i >= |p| { assert t[i] == s[i - |p|]; } else { assert t[i] == p[i]; }
    }
    forall i | |p| + b <= i < |t| ensures IsBlank(w, t[i]) {
      if i < |p| + |s| { assert t[i] == s[i - |p|]; } else { assert t[i] == q[i - |p| - |s|]; }
    }
    assert t[|p| + a] == s[a] && t[|p| + b - 1] == s[b - 1];
  }

  /** Whitespace added around `s` does not change the part stripping keeps. */
  lemma StripPaddedAt(w: Blanks, p: string, s: string, q: string, a: int, b: int)
    requires AllBlank(w, p) && AllBlank(w, q)
    requires StrippedAt(w, s, a, b) && a < b
    ensures Strip(w, p + s + q) == s[a..b]
  {
    var t := p + s + q;
    StrippedAtPadded(w, p, s, q, a, b);
    StripUnique(w, t, |p| + a, |p| + b);
    assert t[|p| + a..|p| + b] == s[a..b];
  }

  /** Whitespace added around text that is all whitespace leaves nothing to keep. */
  lemma AllBlankPadded(w: Blanks, p: string, s: string, q: string)
    requires AllBlank(w, p) && AllBlank(w, s) && AllBlank(w, q)
    ensures AllBlank(w, p + s + q)
  {
    var t := p + s + q;
    forall i | 0 <= i < |t| ensures IsBlank(w, t[i]) {
      if i < |p| {
        assert t[i] == p[i];
      } else if i < |p| + |s| {
        assert t[i] == s[i - |p|];
      } else {
        assert t[i] == q[i - |p| - |s|];
      }
    }
  }

  /** Stripping leaves nothing exactly when the text is all whitespace. */
  lemma StripEmptyIff(w: Blanks, s: string)
    ensures Strip(w, s) == [] <==> AllBlank(w, s)
  {
    var ab := StripBounds(w, s);
    StripBoundsSpec(w, s);
    if ab.0 == ab.1 {
      forall i | 0 <= i < |s| ensures IsBlank(w, s[i]) {
        if i >= ab.0 { assert ab.1 <= i; }
      }
    }
    if AllBlank(w, s) {
      assert StrippedAt(w, s, 0, 0);
      StripUnique(w, s, 0, 0);
    }
  }

  /** Stripping ignores whitespace added around the text. */
  lemma StripPadded(w: Blanks, p: string, s: string, q: string)
    requires AllBlank(w, p) && AllBlank(w, q)
    ensures Strip(w, p + s + q) == Strip(w, s)
  {
    var t := p + s + q;
    StripEmptyIff(w, s);
    if AllBlank(w, s) {
      AllBlankPadded(w, p, s, q);
      StripEmptyIff(w, t);
    } else {
      var ab := StripBounds(w, s);
      StripBoundsSpec(w, s);
      StripPaddedAt(w, p, s, q, ab.0, ab.1);
    }
  }

  /** Lower-casing keeps every character's whitespace status, so stripping bounds carry over. */
  lemma StrippedAtLower(w: Blanks, s: string, a: int, b: int)
    requires StrippedAt(w, s, a, b)
    ensures StrippedAt(w, Lower(s), a, b)
  {
    var l := Lower(s);
    forall i | 0 <= i < |s| ensures IsBlank(w, l[i]) == IsBlank(w, s[i]) {
      assert l[i] == LowerChar(s[i]);
    }
  }

  /** Lower-casing a slice gives the same slice of the lower-cased text. */
  lemma LowerSlice(s: string, a: int, b: int)
    requires 0 <= a <= b <= |s|
    ensures Lower(s)[a..b] == Lower(s[a..b])
  {
    var l, m := Lower(s), Lower(s[a..b]);
    forall k | 0 <= k < b - a ensures l[a..b][k] == m[k] {
      assert l[a + k] == LowerChar(s[a + k]) && m[k] == LowerChar(s[a..b][k]);
    }
  }

  /** Lower-casing commutes with stripping. */
  lemma StripLower(w: Blanks, s: string)
    ensures Strip(w, Lower(s)) == Lower(Strip(w, s))
  {
    var ab := StripBounds(w, s);
    var a, b := ab.0, ab.1;
    StripBoundsSpec(w, s);
    StrippedAtLower(w, s, a, b);
    var l := Lower(s);
    StripUnique(w, l, a, b);
    LowerSlice(s, a, b);
  }

  predicate IsDigit(c: char) {
    '0' <= c <= '9'
  }

  predicate AllDigits(s: string) {
    forall i :: 0 <= i < |s| ==> IsDigit(s[i])
  }

  function DigitChar(d: nat): (c: char)
    requires d < 10
    ensures IsDigit(c)
  {
    ('0' as int + d) as char
  }

  /** The value of a run of decimal digits, most significant first. */
  function DigitsValue(s: string): nat
    requires AllDigits(s)
  {
    if s == [] then 0 else DigitsValue(s[..|s| - 1]) * 10 + (s[|s| - 1] as int - '0' as int)
  }

  /** `str(n)` for a natural number: its decimal digits, with no leading zero. */
  function Decimal(n: nat): (s: string)
    ensures |s| > 0 && AllDigits(s)
    ensures DigitsValue(s) == n
    ensures s[0] == '0' ==> s == "0"
  {
    if n < 10 then [DigitChar(n)]
    else
      var front := Decimal(n / 10);
      var s := front + [DigitChar(n % 10)];
      assert s[..|s| - 1] == front;
      s
  }

  /**
   * `str(n)` for any integer: a minus sign in front of the digits of a
   * negative number. What follows the sign is the canonical decimal text of
   * the magnitude: digits only, with no leading zero except in `"0"`.
   */
  function IntToString(n: int): (s: string)
    ensures |s| > 0
    ensures s[0] == '-' <==> n < 0
    ensures var d := if n < 0 then s[1..] else s;
      && |d| > 0 && AllDigits(d)
      && DigitsValue(d) == (if n < 0 then -n else n)
      && (d[0] == '0' ==> d == "0")
  {
    if n < 0 then
      var s := "-" + Decimal(-n);
      assert s[1..] == Decimal(-n);
      s
    else Decimal(n)
  }

  /**
   * `int(s)` on a `str`: space and `\t` `\n` `\v` `\f` `\r` around the
   * literal are skipped, then an optional `+` or `-` is followed by one or
   * more ASCII digits; anything else raises `ValueError`, modelled as `None`.
   * A successful parse needs at least one digit in `s`.
   */
  function ParseInt(s: string): (r: Option<int>)
    ensures r.Some? ==> exists i :: 0 <= i < |s| && IsDigit(s[i])
  {
    var ab := StripBounds(IntBlanks, s);
    var t := Strip(IntBlanks, s);
    var r := ParseStripped(t);
    assert r.Some? ==> IsDigit(s[ab.0 + |t| - 1]);
    r
  }

  /**
   * The integer literal left after skipping whitespace: a sign at most, then
   * at least one digit; the literal ends in a digit, and a negative value
   * comes from a leading minus.
   */
  function ParseStripped(t: string): (r: Option<int>)
    ensures r.Some? ==> |t| > 0 && IsDigit(t[|t| - 1])
    ensures r.Some? && r.value < 0 ==> t[0] == '-'
  {
    if |t| > 0 && (t[0] == '+' || t[0] == '-') then
      var digits := t[1..];
      if |digits| > 0 && AllDigits(digits) then
        var magnitude: int := DigitsValue(digits);
        assert IsDigit(digits[|digits| - 1]);
        Some(if t[0] == '-' then -magnitude else magnitude)
      else None
    else if |t| > 0 && AllDigits(t) then Some(DigitsValue(t))
    else None
  }

  /** The signs `int()` accepts in front of the digits: none, `+` or `-`. */
  predicate IsSign(sg: string) {
    sg == "" || sg == "+" || sg == "-"
  }

  /** The value of the literal `sg + d`. */
  function SignedValue(sg: string, d: string): int
    requires AllDigits(d)
  {
    var magnitude: int := DigitsValue(d);
    if sg == "-" then -magnitude else magnitude
  }

  /** Every sign followed by one or more digits is accepted, leading zeros included, with its value. */
  lemma ParseStrippedAccepts(sg: string, d: string)
    requires IsSign(sg) && |d| > 0 && AllDigits(d)
    ensures ParseStripped(sg + d) == Some(SignedValue(sg, d))
  {
    var t := sg + d;
    if sg == "" {
      assert t == d;
      assert !(t[0] == '+' || t[0] == '-') by { assert IsDigit(d[0]); }
    } else {
      assert t[0] == sg[0] && t[1..] == d;
    }
  }

  /** Nothing but a sign followed by one or more digits is accepted. */
  lemma ParseStrippedOnly(t: string)
    requires ParseStripped(t).Some?
    ensures exists sg, d ::
      && IsSign(sg) && |d| > 0 && AllDigits(d) && t == sg + d
      && ParseStripped(t) == Some(SignedValue(sg, d))
  {
    if t[0] == '+' || t[0] == '-' {
      var sg, d := t[..1], t[1..];
      assert t == sg + d;
      assert sg == "+" || sg == "-";
    } else {
      assert t == "" + t;
    }
  }

  /** A sign-then-digits literal has nothing for `int()` to skip. */
  lemma LiteralUnstripped(sg: string, d: string)
    requires IsSign(sg) && |d| > 0 && AllDigits(d)
    ensures Strip(IntBlanks, sg + d) == sg + d
  {
    var t := sg + d;
    assert t[|t| - 1] == d[|d| - 1];
    if sg == "" {
      assert t[0] == d[0] && IsDigit(d[0]);
    } else {
      assert t[0] == sg[0];
    }
    StripUnique(IntBlanks, t, 0, |t|);
    assert t[0..|t|] == t;
  }

  /** What lies outside the part stripping keeps is whitespace. */
  lemma StrippedOutside(w: Blanks, s: string, a: int, b: int)
    requires StrippedAt(w, s, a, b)
    ensures AllBlank(w, s[..a]) && AllBlank(w, s[b..])
  {
    forall i | 0 <= i < a ensures IsBlank(w, s[..a][i]) { assert s[..a][i] == s[i]; }
    forall i | 0 <= i < |s| - b ensures IsBlank(w, s[b..][i]) { assert s[b..][i] == s[b + i]; }
  }

  /** `int()` accepts every sign-then-digits literal with skipped whitespace around it, with the literal's value. */
  lemma ParseIntAccepts(p: string, sg: string, d: string, q: string)
    requires AllBlank(IntBlanks, p) && AllBlank(IntBlanks, q)
    requires IsSign(sg) && |d| > 0 && AllDigits(d)
    ensures ParseInt(p + (sg + d) + q) == Some(SignedValue(sg, d))
  {
    ParseIntPadded(p, sg + d, q);
    LiteralUnstripped(sg, d);
    ParseStrippedAccepts(sg, d);
  }

  /** `int()` accepts nothing else: a parsed field is skipped whitespace, a sign, digits and skipped whitespace. */
  lemma ParseIntOnly(s: string)
    requires ParseInt(s).Some?
    ensures exists p, sg, d, q ::
      && AllBlank(IntBlanks, p) && AllBlank(IntBlanks, q)
      && IsSign(sg) && |d| > 0 && AllDigits(d)
      && s == p + (sg + d) + q
      && ParseInt(s) == Some(SignedValue(sg, d))
  {
    var ab := StripBounds(IntBlanks, s);
    StripBoundsSpec(IntBlanks, s);
    var t := s[ab.0..ab.1];
    assert Strip(IntBlanks, s) == t;
    assert ParseInt(s) == ParseStripped(t);
    ParseStrippedOnly(t);
    var sg, d :| IsSign(sg) && |d| > 0 && AllDigits(d) && t == sg + d
      && ParseStripped(t) == Some(SignedValue(sg, d));
    var p, q := s[..ab.0], s[ab.1..];
    StrippedOutside(IntBlanks, s, ab.0, ab.1);
    assert s == p + (sg + d) + q by { assert s == s[..ab.0] + t + s[ab.1..]; }
  }

  /** `int(str(n)) == n`: the decimal rendering of an integer reads back as that integer. */
  lemma ParseIntToString(n: int)
    ensures ParseInt(IntToString(n)) == Some(n)
  {
    var s := IntToString(n);
    StripUnique(IntBlanks, s, 0, |s|);
    if n < 0 {
      var digits := Decimal(-n);
      assert s[1..] == digits;
      assert DigitsValue(digits) == -n;
      assert Strip(IntBlanks, s) == s;
      assert s[0] == '-' && s[0] != '+';
      assert |s[1..]| > 0 && AllDigits(s[1..]);
    } else {
      assert s == Decimal(n);
      assert Strip(IntBlanks, s) == s;
      assert IsDigit(s[0]);
    }
  }

  /** `int()` ignores the whitespace it skips around the number. */
  lemma ParseIntPadded(p: string, s: string, q: string)
    requires AllBlank(IntBlanks, p) && AllBlank(IntBlanks, q)
    ensures ParseInt(p + s + q) == ParseInt(s)
  {
    StripPadded(IntBlanks, p, s, q);
  }

  /**
   * A separator character `\x1c`-`\x1f` next to the digits makes `int()`
   * fail, although `str.strip()` removes it.
   */
  lemma ParseIntRejectsSeparator(c: char, d: string)
    requires 28 <= c as int <= 31
    requires |d| > 0 && AllDigits(d)
    ensures ParseInt([c] + d) == None
    ensures ParseInt(d + [c]) == None
    ensures Strip(StrBlanks, [c] + d) == d
  {
    var s, u := [c] + d, d + [c];
    StripUnique(IntBlanks, s, 0, |s|);
    StripUnique(IntBlanks, u, 0, |u|);
    assert s[0] == c && !IsDigit(s[0]);
    assert u[|u| - 1] == c && !IsDigit(u[|u| - 1]);
    assert StrippedAt(StrBlanks, s, 1, |s|) by {
      assert s[1] == d[0] && s[|s| - 1] == d[|d| - 1];
    }
    StripUnique(StrBlanks, s, 1, |s|);
    assert s[1..] == d;
  }
}

=== FILE: symbols.dfy ===
/**
 * The symbol lookup of exportPetIcon.py: scan the rows of a `;`-separated
 * symbol table in file order and return the id of the first row that names
 * the "item" symbol and whose id parses as an integer.
 */
module SymbolTable {

  import opened Options
  import opened PyStrings

  /** One row as the CSV reader yields it: its fields, in order. */
  type Row = seq<string>

  const ItemName := "item"

  /** The name test: the second field, stripped and lower-cased, is "item". */
  predicate IsItemName(field: string) {
    Lower(Strip(StrBlanks, field)) == ItemName
  }

  /** A row the scan stops at: two or more fields, the item name, and an id that parses. */
  predicate Qualifies(row: Row) {
    |row| >= 2 && IsItemName(row[1]) && ParseInt(row[0]).Some?
  }

  /** Row `i` qualifies and no row before it does. */
  ghost predicate IsFirstQualifying(rows: seq<Row>, i: int) {
    && 0 <= i < |rows|
    && Qualifies(rows[i])
    && forall j :: 0 <= j < i ==> !Qualifies(rows[j])
  }

  /** Some row of `rows` qualifies and its first field parses as `id`. */
  ghost predicate IdOfSomeRow(rows: seq<Row>, id: int) {
    exists i :: 0 <= i < |rows| && Qualifies(rows[i]) && ParseInt(rows[i][0]) == Some(id)
  }

  /**
   * `find_item_frame`: scan the rows in order and stop at the first that
   * qualifies; a row whose name matches but whose id does not parse is
   * passed over, and reaching the end gives `None`.
   */
  function FindItemFrame(rows: seq<Row>): (r: Option<int>)
    ensures r.Some? ==> IdOfSomeRow(rows, r.value)
  {
    if rows == [] then None
    else if Qualifies(rows[0]) then ParseInt(rows[0][0])
    else FindItemFrame(rows[1..])
  }

  /**
   * The scan finds nothing exactly when no row qualifies, and otherwise
   * returns the parsed id of the first qualifying row.
   */
  lemma {:induction false} FindItemFrameFirstMatch(rows: seq<Row>)
    ensures FindItemFrame(rows).None? <==> forall i :: 0 <= i < |rows| ==> !Qualifies(rows[i])
    ensures forall i :: IsFirstQualifying(rows, i) ==> FindItemFrame(rows) == ParseInt(rows[i][0])
  {
    if rows != [] && !Qualifies(rows[0]) {
      FindItemFrameFirstMatch(rows[1..]);
      FirstQualifyingShift(rows);
    }
  }

  /** Past a first row that does not qualify, the first qualifying row is one place further on. */
  lemma FirstQualifyingShift(rows: seq<Row>)
    requires rows != [] && !Qualifies(rows[0])
    ensures forall i :: IsFirstQualifying(rows, i) ==> IsFirstQualifying(rows[1..], i - 1)
    ensures (forall i :: 0 <= i < |rows| ==> !Qualifies(rows[i]))
        <==> (forall i :: 0 <= i < |rows| - 1 ==> !Qualifies(rows[1..][i]))
  {
    assert forall i :: 0 <= i < |rows| - 1 ==> rows[1..][i] == rows[i + 1];
    forall i | IsFirstQualifying(rows, i) ensures IsFirstQualifying(rows[1..], i - 1) {
      assert rows[1..][i - 1] == rows[i];
      forall j | 0 <= j < i - 1 ensures !Qualifies(rows[1..][j]) {
        assert rows[1..][j] == rows[j + 1];
      }
    }
    if forall i :: 0 <= i < |rows| - 1 ==> !Qualifies(rows[1..][i]) {
      forall i | 0 <= i < |rows| ensures !Qualifies(rows[i]) {
        if i > 0 { assert rows[i] == rows[1..][i - 1]; }
      }
    }
  }

  /** A match in the first part of the table hides everything after it; otherwise the scan goes on into the second. */
  lemma {:induction false} FindItemFrameAppend(a: seq<Row>, b: seq<Row>)
    ensures FindItemFrame(a + b) == if FindItemFrame(a).Some? then FindItemFrame(a) else FindItemFrame(b)
  {
    if a != [] {
      assert (a + b)[0] == a[0];
      assert (a + b)[1..] == a[1..] + b;
      FindItemFrameAppend(a[1..], b);
    } else {
      assert a + b == b;
    }
  }

  /** Rows after the first match never change the result. */
  lemma LaterRowsIrrelevant(a: seq<Row>, b: seq<Row>)
    requires FindItemFrame(a).Some?
    ensures FindItemFrame(a + b) == FindItemFrame(a)
  {
    FindItemFrameAppend(a, b);
  }

  /**
   * A row that is too short, whose name is not "item", or whose id does not
   * parse is skipped wherever it stands: removing it changes nothing.
   */
  lemma NonQualifyingRowSkipped(before: seq<Row>, row: Row, after: seq<Row>)
    requires |row| < 2 || !IsItemName(row[1]) || ParseInt(row[0]).None?
    ensures FindItemFrame(before + [row] + after) == FindItemFrame(before + after)
  {
    assert before + [row] + after == before + ([row] + after);
    FindItemFrameAppend(before, [row] + after);
    FindItemFrameAppend(before, after);
    assert ([row] + after)[1..] == after;
  }

  /**
   * Two tables whose rows agree on which rows qualify, and on the id of
   * each qualifying row, give the same answer: nothing else in a row matters.
   */
  lemma {:induction false} FindItemFrameCongruent(rows: seq<Row>, rows2: seq<Row>)
    requires |rows| == |rows2|
    requires forall i :: 0 <= i < |rows| ==> Qualifies(rows[i]) == Qualifies(rows2[i])
    requires forall i :: 0 <= i < |rows| && Qualifies(rows[i]) && Qualifies(rows2[i]) ==> rows[i][0] == rows2[i][0]
    ensures FindItemFrame(rows) == FindItemFrame(rows2)
  {
    if rows != [] && !Qualifies(rows[0]) {
      FindItemFrameCongruent(rows[1..], rows2[1..]);
    }
  }

  /** The name test ignores case. */
  lemma ItemNameIgnoresCase(v: string, w: string)
    requires Lower(v) == Lower(w)
    ensures IsItemName(v) == IsItemName(w)
  {
    StripLower(StrBlanks, v);
    StripLower(StrBlanks, w);
  }

  /** The name test ignores whitespace around the name. */
  lemma ItemNameIgnoresPadding(p: string, v: string, q: string)
    requires AllBlank(StrBlanks, p) && AllBlank(StrBlanks, q)
    ensures IsItemName(p + v + q) == IsItemName(v)
  {
    StripPadded(StrBlanks, p, v, q);
  }

  /** The literal "item" passes the name test. */
  lemma ItemIsItemName()
    ensures IsItemName(ItemName)
  {
    StripUnique(StrBlanks, ItemName, 0, 4);
    var l := Lower(ItemName);
    assert l[0] == 'i' && l[1] == 't' && l[2] == 'e' && l[3] == 'm';
  }

  /** "Item" passes the name test. */
  lemma CapitalisedIsItemName()
    ensures IsItemName("Item")
  {
    var s := "Item";
    StripUnique(StrBlanks, s, 0, 4);
    assert s[0..4] == s;
    var l := Lower(s);
    assert l[0] == 'i' && l[1] == 't' && l[2] == 'e' && l[3] == 'm';
  }

  /** "ITEM" passes the name test. */
  lemma UpperCaseIsItemName()
    ensures IsItemName("ITEM")
  {
    var s := "ITEM";
    StripUnique(StrBlanks, s, 0, 4);
    assert s[0..4] == s;
    var l := Lower(s);
    assert l[0] == 'i' && l[1] == 't' && l[2] == 'e' && l[3] == 'm';
  }

  /** " item " passes the name test. */
  lemma PaddedIsItemName()
    ensures IsItemName(" item ")
  {
    var s := " item ";
    assert StrippedAt(StrBlanks, s, 1, 5);
    StripUnique(StrBlanks, s, 1, 5);
    assert s[1..5] == ItemName;
    ItemIsItemName();
  }

  /** "item", "Item", "ITEM" and " item " all pass the name test. */
  lemma ItemSpellings()
    ensures IsItemName("item") && IsItemName("Item") && IsItemName("ITEM") && IsItemName(" item ")
  {
    ItemIsItemName();
    CapitalisedIsItemName();
    UpperCaseIsItemName();
    PaddedIsItemName();
  }

  /** Swapping one row for another that qualifies alike, with the same id if it does, leaves the result unchanged. */
  lemma ReplaceRow(before: seq<Row>, row: Row, row2: Row, after: seq<Row>)
    requires Qualifies(row) == Qualifies(row2)
    requires Qualifies(row) ==> row[0] == row2[0]
    ensures FindItemFrame(before + [row] + after) == FindItemFrame(before + [row2] + after)
  {
    assert before + [row] + after == before + ([row] + after);
    assert before + [row2] + after == before + ([row2] + after);
    FindItemFrameAppend(before, [row] + after);
    FindItemFrameAppend(before, [row2] + after);
    assert ([row] + after)[1..] == after && ([row2] + after)[1..] == after;
  }

  /**
   * Spelling the name field of one row as "Item", "ITEM" or " item " instead
   * of "item" leaves the result of the whole scan unchanged.
   */
  lemma ItemSpellingIrrelevant(before: seq<Row>, id: string, spelling: string, rest: seq<string>, after: seq<Row>)
    requires spelling == "Item" || spelling == "ITEM" || spelling == " item "
    ensures FindItemFrame(before + [[id, spelling] + rest] + after)
         == FindItemFrame(before + [[id, ItemName] + rest] + after)
  {
    ItemSpellings();
    var row, row2 := [id, spelling] + rest, [id, ItemName] + rest;
    assert row[0] == id && row[1] == spelling && row2[0] == id && row2[1] == ItemName;
    ReplaceRow(before, row, row2, after);
  }

  /** An empty table has no item symbol. */
  lemma EmptyTableHasNoItem()
    ensures FindItemFrame([]) == None
  {
  }
}
